=== FILE: README.md ===
# ASCII Motion, modelled in Dafny

ASCII Motion turns images and videos into ASCII art in the browser. It draws a
background animation of pattern characters. Its routes/ascii.py blueprint
defines endpoints that save, load, delete and list pieces of art. This
project models the core of that system as pure Dafny functions and methods
over immutable data, and proves what each part guarantees.

- `ascii_convert.dfy`, module `AsciiConvert`: the pixel loop shared by
  `convertImageToAscii` and `convertFrameToASCII`.
  - It works on an RGBA byte buffer, four bytes per pixel in row-major order.
  - Each pixel becomes one character of the ramp `@#$%=+*:-. `.
  - The character is picked from the pixel's mean brightness.
  - A line break opens every row.
  - Also here: the 100-column sample grid and its height.
- `playback.dfy`, module `Playback`: the `VideoToASCII` player.
  - Frame extraction at 24 frames per second.
  - A frame buffer played in a cycle by timer ticks, with play, pause and stop.
- `animation.dfy`, module `Animation`: the `ASCIIAnimations` background.
  - A grid sized to the viewport, one pattern character per cell.
  - The pattern button (cycles through three patterns) and the toggle button.
  - The character selection of the wave and spiral patterns.
- `art_routes.dfy`, module `ArtRoutes`: `save_art`, `load_art`, `delete_art`
  and `public_feed` over an abstract table of `ASCIIArt` rows.
  - The table is a map from primary key to row, plus the next key to assign.
- `divmod.dfy`, module `DivMod`: facts about integer division and remainder
  that the other modules use.

How the model handles the environment:

- Browser state becomes explicit data.
  - The text each component last wrote to the page is a field of its player
    or animator state. In the page the image converter, the player and the
    animation all write one shared element.
  - Timer callbacks become one function application per tick.
- Canvas pixels, the clock and the viewport size are parameters.
  - A seeked video frame drawn into the canvas is `draw(t)`: the byte buffer
    after seeking to time `t`.
- The rain, wave and spiral functions use floating point and randomness, so
  the grid takes the pattern as a function parameter.
  - Only the index arithmetic of the wave and spiral patterns is modelled.
- On the server, the logged-in user, the request's JSON object and the
  creation time are parameters.

## Model

| member | source | states |
|---|---|---|
| AsciiConvert.CharIndex | static/js/ascii.js:96-97 | The ramp index of a pixel always lies inside the ramp. A black pixel (channel sum 0) gets the first character and a white pixel (sum 765) the last. |
| AsciiConvert.CharIndexMonotone | static/js/ascii.js:96-97 | A brighter pixel never gets an earlier, darker ramp character. |
| AsciiConvert.DefaultRampEndpoints | static/js/ascii.js:6 | With the default ramp, black is `@` and white is a space. |
| AsciiConvert.PixelSum | static/js/ascii.js:96 | The red, green and blue sum of a pixel is at most 765, so its mean brightness is at most 255. |
| AsciiConvert.PixelChar | static/js/ascii.js:96-98 | Every pixel becomes a character of the ramp. |
| AsciiConvert.ConvertPixels | static/js/ascii.js:165-171 | After n pixels the text has one character per pixel plus one line break per row begun. Every character is a line break or a ramp character. |
| AsciiConvert.ConvertFrameToAscii | static/js/ascii.js:161-174 | A frame of n pixels converts to n characters plus one line break per row begun, each a line break or a ramp character. FrameLayout gives the position of every one. |
| AsciiConvert.LoopStep | static/js/ascii.js:93-98 | One loop iteration at byte offset 4p appends a line break exactly when pixel p starts a row, then appends that pixel's character. |
| AsciiConvert.ConvertImageToAscii | static/js/ascii.js:83-101 | The image loop, stepping 4 bytes at a time and testing the byte offset against 4 * width, yields exactly the text of convertFrameToASCII on the same buffer. |
| AsciiConvert.FrameLayout | static/js/ascii.js:161-174 | A width-by-height frame converts to width*height + height characters. Row y opens with a line break at y*(width+1). Column x of row y holds the character of pixel y*width + x. |
| AsciiConvert.AlphaIgnored | static/js/ascii.js:168 | Two buffers that differ only in alpha bytes convert to the same text. |
| AsciiConvert.SolidColour | static/js/ascii.js:168-170 | A buffer of equally bright pixels converts to line breaks and one repeated ramp character. All black gives the first ramp character and all white the last. |
| AsciiConvert.SampleHeight | static/js/ascii.js:84-85 | The sample height is the largest h with 2*srcWidth*h <= srcHeight*100, i.e. floor(srcHeight*100/srcWidth/2). |
| Playback.NextShown | static/js/ascii.js:186-188 | The frame shown next is the cursor, or frame 0 once the cursor has passed the end of the buffer. |
| Playback.PlayNextFrame | static/js/ascii.js:183-194 | A tick while not playing changes nothing. A tick while playing shows frame NextShown (the cursor, or 0 past the end) and moves the cursor one past it, into 1..n. An empty buffer shows empty text. |
| Playback.Ticks | static/js/ascii.js:193 | The self-re-arming timer chain never changes the buffer or the playing flag, and a stopped or paused player ignores it. |
| Playback.Play | static/js/ascii.js:176-181 | Play does nothing when already playing or when the buffer is empty. Otherwise it starts playing and shows the next frame immediately. |
| Playback.Pause | static/js/ascii.js:196-198 | Pause clears the playing flag and keeps cursor, buffer and shown text. |
| Playback.Stop | static/js/ascii.js:200-204 | Stop clears the playing flag, rewinds the cursor to 0 and blanks the display, from any state. |
| Playback.TicksCycle | static/js/ascii.js:183-193 | Playback is cyclic. Starting at frame s, the k-th tick shows frame (s + k - 1) mod n, and playback never stops on its own. |
| Playback.PauseThenPlayResumes | static/js/ascii.js:176-198 | Pausing and then playing shows the same frame as one more uninterrupted tick. |
| Playback.StopThenPlayRestarts | static/js/ascii.js:176-204 | After a stop, playing shows frame 0 and sets the cursor to 1. |
| Playback.SeekTime | static/js/ascii.js:149 | Frame i is sampled at i/24 seconds. |
| Playback.SeekTimesIncrease | static/js/ascii.js:148-149 | Sample times strictly increase with the frame index. |
| Playback.FrameCount | static/js/ascii.js:143 | The frame count is floor(duration * 24). |
| Playback.ExtractFrames | static/js/ascii.js:139-159 | After extraction the buffer holds exactly frameCount frames. Frame i is the conversion of the canvas drawn at i/24 s. Flag, cursor and display are untouched. |
| Playback.ProcessVideo | static/js/ascii.js:131-159 | The canvas is 100 columns by SampleHeight rows and floor(duration * 24) frames are extracted, frame i converted from the video at i/24 s. Playback then starts whenever frames exist. A stopped or paused player shows frame k at once, k being its old cursor wrapped to 0 past the new end. A player already playing, or a video with no frames, keeps its flag, cursor and shown text. |
| Animation.GridWidth | static/js/animations.js:90 | The column count covers the viewport width in 8-pixel cells with less than one cell to spare. |
| Animation.GridHeight | static/js/animations.js:91 | The row count covers the viewport height in 16-pixel cells with less than one cell to spare. |
| Animation.CeilDiv | static/js/animations.js:90-91 | The rounded-up quotient covers the dividend with less than one divisor to spare. |
| Animation.Line | static/js/animations.js:98-100 | Row y has exactly width characters, the pattern's character at each column. |
| Animation.Grid | static/js/animations.js:97-104 | A grid of h >= 1 rows of w characters is w*h + h - 1 long, with no break after the last row. No rows give empty text. |
| Animation.GridLayout | static/js/animations.js:97-104 | Column x of row y holds the pattern's character for (x, y) at the frame's single timestamp. Every row but the last is followed by a line break. |
| Animation.BuildGrid | static/js/animations.js:93-104 | The nested row and column loop produces exactly that grid. |
| Animation.Animate | static/js/animations.js:83-107 | A frame is rendered only when animating and the container exists, and then the container holds the grid of the active pattern. Pattern and flag never change. |
| Animation.FrameFillsViewport | static/js/animations.js:86-91 | The grid covers the viewport in 8x16 cells with less than one cell to spare in each direction. |
| Animation.ChangePattern | static/js/animations.js:39-44 | The pattern button moves to the next of three patterns, wrapping from the last to the first. Nothing else changes. |
| Animation.ChangePatternCycles | static/js/animations.js:3-8 | Three presses of the pattern button return to the starting pattern. |
| Animation.Toggle | static/js/animations.js:31-37 | Toggle flips the animation flag. Turning animation on renders a frame at once; turning it off leaves the last frame in place. Without a container nothing is ever written. |
| Animation.ToggleOffThenOn | static/js/animations.js:31-37 | While switched off, requested frames change nothing and the last frame stays. Switching back on draws exactly the frame an uninterrupted animation would draw at that moment. |
| Animation.ConstructionDrawsFirstPattern | static/js/animations.js:2-13 | A new animator is animating on the first pattern. With the container present its first frame is the rain grid; without it nothing is drawn. |
| Animation.WaveIndex | static/js/animations.js:64-66 | The wave character index always lies inside its ten-character ramp. It is 0 for values at or below -2 and the last index at or above 2. |
| Animation.Clamp | static/js/animations.js:66 | The clamped index lies in the range and equals the input whenever the input already does. |
| Animation.WaveIndexMonotone | static/js/animations.js:65-66 | A larger wave value never selects an earlier character. |
| Animation.SpiralIndexAsWritten | static/js/animations.js:80 | For the values the spiral can produce, -1 to 1, the unclamped index lies between 0 and the ramp length, one past the last character. |
| Animation.SpiralCellAsWritten | static/js/animations.js:79-80 | The spiral contributes one character to a cell exactly when its unclamped index is inside the ramp, and then it is the character the clamped index selects. Otherwise the cell receives the nine characters "undefined". |
| Animation.SpiralIndexOverflows | static/js/animations.js:76-80 | At value 1.0 the unclamped spiral index is 11, one past its eleven-character ramp, and the cell receives "undefined". |
| Animation.SpiralIndex | static/js/animations.js:79-80 | The clamped spiral index lies in the ramp for every value, agrees with the written index wherever that one is in range, and is the last index from 1.0 up. |
| Animation.SpiralClampOnlyAtTop | static/js/animations.js:76-80 | In exact arithmetic, for every spiral value in [-1, 1) the written index is in range and the clamp changes nothing. |
| ArtRoutes.SaveArt | routes/ascii.py:10-26 | A request missing title, content or config gets 400 and changes nothing (an if-and-only-if). Otherwise a row under a fresh key copies the three fields, is owned by the caller, keeps every other row, and is returned with 201. |
| ArtRoutes.LoadArt | routes/ascii.py:28-34 | 404 exactly for an unknown key and 403 exactly for a row of another user. 200 exactly for the caller's own row, returned in full. |
| ArtRoutes.DeleteArt | routes/ascii.py:36-45 | 404 and 403 exactly as for load, with the table unchanged. 204 exactly for the caller's own row, which alone is removed. |
| ArtRoutes.DeleteThenLoad | routes/ascii.py:28-45 | A row its owner deleted can no longer be loaded (404). |
| ArtRoutes.SaveThenLoad | routes/ascii.py:10-34 | A saved row loads back for its owner with 200 and the same body save returned. |
| ArtRoutes.InsertNewest | routes/ascii.py:52 | Inserting a row into a newest-first list keeps it newest-first and distinct, and adds exactly that row. |
| ArtRoutes.SortNewest | routes/ascii.py:52 | Ordering by created_at descending yields a newest-first permutation of the rows: same members, no duplicates. |
| ArtRoutes.Newest | routes/ascii.py:52 | The feed ordering lists every row of the table exactly once, newest first. |
| ArtRoutes.EffectivePage | routes/ascii.py:49-53 | Pages below 1 are served as page 1. Any other page is served as asked. |
| ArtRoutes.PageSlice | routes/ascii.py:52-53 | Page p holds at most ten rows: positions 10(p-1) onwards of the ordering, cut at its end. |
| ArtRoutes.PageIds | routes/ascii.py:52-53 | Page p is exactly positions 10(p-1) up to 10p of the newest-first ordering, cut at its end, for the effective page p. So it has at most ten rows, distinct and newest first. |
| ArtRoutes.FeedItems | routes/ascii.py:56 | Each listed item is to_dict of the corresponding row of the page. |
| ArtRoutes.PublicFeed | routes/ascii.py:47-60 | The feed always answers 200 with the effective page number. Its items are exactly the rows at positions 10(p-1) up to 10p of the newest-first ordering, at most ten, each rendered by to_dict, distinct and newest first. |
| ArtRoutes.HasRequiredFields | routes/ascii.py:13 | A request passes exactly when every key of the list title, content, config is present. |
| ArtRoutes.ToDictInjective | models/ascii_art.py:13-22 | to_dict keeps the key and every modelled column, so two renderings are equal exactly when key and row are. |
| ArtRoutes.PageOf | routes/ascii.py:52-53 | Position i of the ordering falls on page i/10 + 1. |
| ArtRoutes.SliceHolding | routes/ascii.py:52-53 | Every member of an ordering lies on some page of it. |
| ArtRoutes.FeedListsEveryArt | routes/ascii.py:52-53 | Every row of the table appears on some feed page. |
| ArtRoutes.FeedPagesNewestFirst | routes/ascii.py:52-53 | Every row on an earlier page is at least as new as every row on a later page. |

## Left out

- The DOM, canvas and event wiring are left out: element lookup, cursor
  ripple, file input, FileReader, object URLs, the loading indicator and the
  button listeners. They are I/O. Their effect enters as parameters: the pixel
  buffer, the viewport size, the timestamp and the user.
- The image resampling `drawImage` performs is left out, because it is
  browser code. The model starts from the pixel buffer `getImageData` returns.
- AsciiConvert.CharIndex: computes floor(sum/3/255*(len-1)) in exact
  arithmetic. The source uses IEEE doubles, which could in principle land one
  index lower where the exact quotient is a whole number.
- Asynchronous interleaving is left out.
  - The model covers ticks, button presses and completed extractions in any
    order, as separate steps. It does not model concurrency.
  - The source does not cancel pending timers. Pause followed by play within
    one tick can leave two timer chains running. Toggling the animation
    similarly adds a second `requestAnimationFrame` loop.
  - `Ticks` models a single chain.
  - ExtractFrames treats each seek-and-draw as atomic.
- Playback.ProcessVideo: the `loadeddata` wait and the hiding of the loading
  indicator are events and DOM, so they are not modelled.
- Playback.ExtractFrames: a canvas height of 0 is excluded. This happens when
  the video is more than 50 times wider than tall, or has no video track.
  There `getImageData` throws inside the `seeked` listener (ascii.js:152-153),
  so `resolve()` is never called. Extraction then never completes and
  playback never starts. The model has no way to express a hang.
- Playback.FrameCount: takes the floor of duration * 24 in exact arithmetic.
  The source multiplies in doubles, and rounding can cross a whole number.
  For the double nearest 1/24 s the source counts 1 frame and the model 0.
  A duration of +Infinity is excluded. `video.duration` reports it for WebM
  files without a duration header, such as MediaRecorder output. There
  frameCount is Infinity, the loop at ascii.js:148 never ends and playback
  never starts. The model has no way to express a hang.
- Animation.SpiralClampOnlyAtTop: the spiral index is computed in exact
  reals. In doubles, `value + 1` can round up to 2.0 for values just below
  1.0, for example 0.9999999999999999. So the overflow also occurs slightly
  below 1.0.
- The image converter, the video player and the background animation all
  write the same page element (ascii.js:5, animations.js:16). The model keeps
  each component's text separately. In the source the animation runs from
  construction (animations.js:9-12, 107), so its next frame overwrites a
  converted image or a played frame. That interference is not modelled.
- Video frames are drawn unpadded into a canvas 100 columns wide whose height
  comes from the video's aspect ratio. Sampling and playback both run at 24
  frames per second. Loading and seeking have no error path.
- The rain pattern, and the sine, cosine and atan2 values of the wave and
  spiral patterns, are left out. They use floating point and
  `Math.random`. The grid takes the pattern as a parameter, and only the
  index selection from the computed value is modelled.
- The spiral centre comes from `window.innerWidth / 16` and
  `window.innerHeight / 32`. It only feeds the floating-point value, so it is
  not modelled.
- ArtRoutes.ToDict: the `username` field, read through the users table, is
  not modelled. The model has no users table.
- `created_at` is rendered as an ISO string in the source. The model keeps the
  timestamp as an integer.
- ArtRoutes.PublicFeed: the `total` and `pages` fields of the feed response
  are not modelled. Only the items and the current page are.
- ArtRoutes.Newest: the database leaves the order of equal `created_at`
  values open. The model fixes one order, ascending key, shared by every
  page query.
- ArtRoutes.FeedListsEveryArt: holds only when every page query breaks
  `created_at` ties the same way. Each page is a separate LIMIT/OFFSET query,
  and a database may order tied rows differently each time. Then a tied row
  can appear on two pages and another on none.
- `request.get_json()` failing or returning a non-object is left out. It is
  Flask's error handling, and the model takes the request as a map of
  fields. Non-integer `page` arguments fall back to 1 before the model sees
  them.
- Login checks (`@login_required`) are left out: the user is a parameter.
- ArtRoutes.ValidStore: assumes keys come from a sequence and are never
  reused. SQLite's INTEGER PRIMARY KEY can hand out the largest key again
  after the newest row is deleted, which the model does not cover.
- Database column constraints are left out: the 100-character title and the
  non-null columns. So are transactions.
- `app.py` registers only the `auth` blueprint (app.py:27), so the routes of
  routes/ascii.py are never served as the code stands. The model describes
  what the handlers do when called.

## Findings

| source | as written | input that shows it | evidently intended | confidence | as-written member | corrected member |
|---|---|---|---|---|---|---|
| static/js/animations.js:79-80 | `chars[Math.floor((value + 1) * chars.length / 2)]` with no clamp. | value = 1.0, when the spiral sine and the wave cosine are both 1. The index is 11 on an 11-character ramp, so the cell gets `undefined`, which `+=` turns into nine characters. In doubles, values just below 1.0 (e.g. 0.9999999999999999) overflow as well. | Clamp the index into the ramp, as wavePattern does at line 66. | medium; not executed | Animation.SpiralIndexOverflows | Animation.SpiralIndex |

=== FILE: animation.dfy ===
/** The background animation of animations.js (class ASCIIAnimations): on every
    display refresh a width-by-height grid of characters is produced by the
    active pattern function and replaces the container's text. The pattern
    functions themselves are floating-point and random, so they are parameters
    here; only the character selection of the wave and spiral patterns is
    modelled, over the real value they compute. */
module Animation {
  import DivMod

  datatype Option<T> = None | Some(value: T)

  /** A pattern: column, row and a millisecond timestamp to one character. */
  type Pattern = (int, int, int) -> char

  /** rain, wave and spiral. */
  const PatternCount: nat := 3

  /** Assumed size in pixels of one monospace character cell. */
  const CharWidth: nat := 8
  const CharHeight: nat := 16

  /** The animator: the index of the active pattern, the animation flag, and
      the text of the container, None when the container element is missing. */
  datatype Animator = Animator(currentPattern: nat, isAnimating: bool, container: Option<string>)

  /** The state the constructor leaves behind before its first frame. */
  function Initial(container: Option<string>): Animator
  {
    Animator(0, true, container)
  }

  /** The constructor ends by calling animate: with the container present the
      first pattern (rain) is drawn at once, without it nothing is drawn. */
  lemma ConstructionDrawsFirstPattern(container: Option<string>, iw: nat, ih: nat, time: int, patterns: seq<Pattern>)
    requires |patterns| == PatternCount
    ensures Valid(Initial(container)) && Initial(container).isAnimating
    ensures container.Some? ==>
      Animate(Initial(container), iw, ih, time, patterns).container ==
      Some(Grid(GridWidth(iw), GridHeight(ih), time, patterns[0]))
    ensures container.None? ==> Animate(Initial(container), iw, ih, time, patterns) == Initial(container)
  {
  }

  predicate Valid(a: Animator)
  {
    a.currentPattern < PatternCount
  }

  /** Math.ceil(a / d) for a whole number of pixels a. */
  function CeilDiv(a: nat, d: nat): (r: nat)
    requires d > 0
    ensures a <= r * d < a + d
  {
    DivMod.DivBounds(a + d - 1, d);
    (a + d - 1) / d
  }

  /** Columns needed to cover the viewport width. */
  function GridWidth(innerWidth: nat): (w: nat)
    ensures innerWidth <= w * CharWidth < innerWidth + CharWidth
  {
    CeilDiv(innerWidth, CharWidth)
  }

  /** Rows needed to cover the viewport height. */
  function GridHeight(innerHeight: nat): (h: nat)
    ensures innerHeight <= h * CharHeight < innerHeight + CharHeight
  {
    CeilDiv(innerHeight, CharHeight)
  }

  /** Row y of the grid: the pattern at columns 0 .. width-1. */
  function Line(width: nat, y: nat, time: int, pattern: Pattern): (line: string)
    ensures |line| == width
    ensures forall x :: 0 <= x < width ==> line[x] == pattern(x, y, time)
  {
    seq(width, x => pattern(x, y, time))
  }

  /** The first `height` rows joined by line breaks, with no break after the
      last row. */
  function Grid(width: nat, height: nat, time: int, pattern: Pattern): (g: string)
    ensures height >= 1 ==> |g| == width * height + height - 1
    ensures height == 0 ==> g == ""
  {
    if height == 0 then ""
    else if height == 1 then Line(width, 0, time, pattern)
    else
      var g := Grid(width, height - 1, time, pattern);
      assert width * height == width * (height - 1) + width;
      g + "\n" + Line(width, height - 1, time, pattern)
  }

  /** Position in the grid text of column x of row y (x == width is the line
      break after the row). */
  function GridPos(width: nat, y: nat, x: nat): nat
  {
    y * (width + 1) + x
  }

  /** Every cell of the grid holds the pattern's character for that cell, all
      computed with the one timestamp of the frame, and every row but the last
      is followed by a line break. */
  lemma GridLayout(width: nat, height: nat, time: int, pattern: Pattern)
    ensures forall y, x :: 0 <= y < height && 0 <= x < width ==>
      GridPos(width, y, x) < |Grid(width, height, time, pattern)| &&
      Grid(width, height, time, pattern)[GridPos(width, y, x)] == pattern(x, y, time)
    ensures forall y :: 0 <= y < height - 1 ==>
      GridPos(width, y, width) < |Grid(width, height, time, pattern)| &&
      Grid(width, height, time, pattern)[GridPos(width, y, width)] == '\n'
  {
    forall y, x | 0 <= y < height && 0 <= x < width
      ensures GridPos(width, y, x) < |Grid(width, height, time, pattern)|
      ensures Grid(width, height, time, pattern)[GridPos(width, y, x)] == pattern(x, y, time)
    {
      GridCell(width, height, time, pattern, y, x);
    }
    forall y | 0 <= y < height - 1
      ensures GridPos(width, y, width) < |Grid(width, height, time, pattern)|
      ensures Grid(width, height, time, pattern)[GridPos(width, y, width)] == '\n'
    {
      GridBreak(width, height, time, pattern, y);
    }
  }

  /** Rows 0 .. height-2 end exactly one position before row height-1 starts. */
  lemma LastRowStart(width: nat, height: nat, time: int, pattern: Pattern)
    requires height >= 2
    ensures |Grid(width, height - 1, time, pattern)| + 1 == GridPos(width, height - 1, 0)
  {
    assert width * (height - 1) + (height - 1) == (height - 1) * (width + 1);
  }

  lemma {:induction false} GridCell(width: nat, height: nat, time: int, pattern: Pattern, y: nat, x: nat)
    requires y < height && x < width
    ensures GridPos(width, y, x) < |Grid(width, height, time, pattern)|
    ensures Grid(width, height, time, pattern)[GridPos(width, y, x)] == pattern(x, y, time)
  {
    if height >= 2 {
      var prev := Grid(width, height - 1, time, pattern);
      assert Grid(width, height, time, pattern) == prev + "\n" + Line(width, height - 1, time, pattern);
      LastRowStart(width, height, time, pattern);
      if y < height - 1 {
        GridCell(width, height - 1, time, pattern, y, x);
      } else {
        assert GridPos(width, y, x) == |prev| + 1 + x;
      }
    }
  }

  lemma {:induction false} GridBreak(width: nat, height: nat, time: int, pattern: Pattern, y: nat)
    requires y + 1 < height
    ensures GridPos(width, y, width) < |Grid(width, height, time, pattern)|
    ensures Grid(width, height, time, pattern)[GridPos(width, y, width)] == '\n'
  {
    var prev := Grid(width, height - 1, time, pattern);
    assert Grid(width, height, time, pattern) == prev + "\n" + Line(width, height - 1, time, pattern);
    LastRowStart(width, height, time, pattern);
    if y + 1 < height - 1 {
      GridBreak(width, height - 1, time, pattern, y);
    } else {
      assert GridPos(width, y, width) + 1 == GridPos(width, y + 1, 0);
    }
  }

  /** The nested loop of animate: for every row, the pattern at every column,
      then a line break unless it is the last row. */
  method BuildGrid(width: nat, height: nat, time: int, pattern: Pattern) returns (output: string)
    ensures output == Grid(width, height, time, pattern)
  {
    output := "";
    var y := 0;
    while y < height
      invariant 0 <= y <= height
      invariant output == if y == 0 then "" else Grid(width, y, time, pattern) + (if y < height then "\n" else "")
    {
      ghost var before := output;
      var x := 0;
      while x < width
        invariant 0 <= x <= width
        invariant output == before + Line(width, y, time, pattern)[..x]
      {
        output := output + [pattern(x, y, time)];
        x := x + 1;
      }
      assert Line(width, y, time, pattern)[..width] == Line(width, y, time, pattern);
      if y < height - 1 {
        output := output + "\n";
      }
      y := y + 1;
    }
  }

  /** animate: when animating and the container exists, renders one frame of
      the active pattern sized to the viewport at timestamp `time`; otherwise
      writes nothing. Pattern index and flag are never changed by a frame. */
  function Animate(a: Animator, innerWidth: nat, innerHeight: nat, time: int, patterns: seq<Pattern>): (q: Animator)
    requires Valid(a) && |patterns| == PatternCount
    ensures q.currentPattern == a.currentPattern && q.isAnimating == a.isAnimating
    ensures !a.isAnimating || a.container.None? ==> q == a
    ensures a.isAnimating && a.container.Some? ==>
      q.container.Some? &&
      q.container.value == Grid(GridWidth(innerWidth), GridHeight(innerHeight), time, patterns[a.currentPattern])
  {
    if !a.isAnimating || a.container.None? then a
    else
      var text := Grid(GridWidth(innerWidth), GridHeight(innerHeight), time, patterns[a.currentPattern]);
      a.(container := Some(text))
  }

  /** A frame fills the viewport: GridHeight rows of GridWidth characters
      separated by single line breaks, covering innerWidth x innerHeight pixels
      with less than one cell to spare in each direction. */
  lemma FrameFillsViewport(a: Animator, innerWidth: nat, innerHeight: nat, time: int, patterns: seq<Pattern>)
    requires Valid(a) && |patterns| == PatternCount
    requires a.isAnimating && a.container.Some? && innerHeight > 0
    ensures var w, h := GridWidth(innerWidth), GridHeight(innerHeight);
      h >= 1 &&
      innerWidth <= w * CharWidth < innerWidth + CharWidth &&
      innerHeight <= h * CharHeight < innerHeight + CharHeight &&
      Animate(a, innerWidth, innerHeight, time, patterns).container.Some? &&
      |Animate(a, innerWidth, innerHeight, time, patterns).container.value| == w * h + h - 1
  {
  }

  /** The pattern button: moves to the next of the three patterns, wrapping
      around; nothing else changes. */
  function ChangePattern(a: Animator): (q: Animator)
    ensures Valid(q)
    ensures q.isAnimating == a.isAnimating && q.container == a.container
    ensures a.currentPattern < PatternCount - 1 ==> q.currentPattern == a.currentPattern + 1
    ensures a.currentPattern == PatternCount - 1 ==> q.currentPattern == 0
  {
    a.(currentPattern := (a.currentPattern + 1) % PatternCount)
  }

  /** Three presses of the pattern button return to the starting pattern. */
  lemma ChangePatternCycles(a: Animator)
    requires Valid(a)
    ensures ChangePattern(ChangePattern(ChangePattern(a))) == a
  {
  }

  /** The toggle button: flips the animation flag and, when that turns the
      animation on, renders a frame at once. Turning it off leaves the last
      frame in the container. */
  function Toggle(a: Animator, innerWidth: nat, innerHeight: nat, time: int, patterns: seq<Pattern>): (q: Animator)
    requires Valid(a) && |patterns| == PatternCount
    ensures Valid(q) && q.currentPattern == a.currentPattern
    ensures q.isAnimating == !a.isAnimating
    ensures a.isAnimating ==> q.container == a.container
    ensures a.container.None? ==> q.container.None?
    ensures !a.isAnimating && a.container.Some? ==>
      q.container == Some(Grid(GridWidth(innerWidth), GridHeight(innerHeight), time, patterns[a.currentPattern]))
  {
    var b := a.(isAnimating := !a.isAnimating);
    if b.isAnimating then Animate(b, innerWidth, innerHeight, time, patterns) else b
  }

  /** Switching the animation off freezes the container: frames requested
      while it is off change nothing. Switching it back on draws the active
      pattern at the new timestamp, exactly the frame an uninterrupted
      animation would have drawn then. */
  lemma ToggleOffThenOn(a: Animator, iw: nat, ih: nat, t1: int, t2: int, patterns: seq<Pattern>)
    requires Valid(a) && |patterns| == PatternCount
    requires a.isAnimating && a.container.Some?
    ensures var off := Toggle(a, iw, ih, t1, patterns);
      !off.isAnimating && off.container == a.container &&
      Animate(off, iw, ih, t2, patterns) == off &&
      Toggle(off, iw, ih, t2, patterns) == Animate(a, iw, ih, t2, patterns)
  {
  }

  /** The ramp of the wave pattern, ten characters. */
  const WaveChars: string := "\U{02DC}~:\U{2248}\U{224B}\U{2263}\U{2591}\U{2592}\U{2593} "

  /** The ramp of the spiral pattern, eleven characters. */
  const SpiralChars: string := ".\U{00B7}\U{02DC}~:\U{2248}\U{224B}\U{2263}\U{2591}\U{2592}\U{2593}"

  /** wavePattern's character index for its computed value: the value's
      position in [-2, 2] scaled to the ramp length, floored, then clamped into
      the ramp. */
  function WaveIndex(value: real): (k: int)
    ensures 0 <= k < |WaveChars|
    ensures value <= -2.0 ==> k == 0
    ensures value >= 2.0 ==> k == |WaveChars| - 1
  {
    var index := ((value + 2.0) / 4.0 * |WaveChars| as real).Floor;
    Clamp(index, 0, |WaveChars| - 1)
  }

  function Clamp(i: int, lo: int, hi: int): (r: int)
    requires lo <= hi
    ensures lo <= r <= hi
    ensures lo <= i <= hi ==> r == i
  {
    if i < lo then lo else if i > hi then hi else i
  }

  /** A larger wave value never selects an earlier character. */
  lemma WaveIndexMonotone(v1: real, v2: real)
    requires v1 <= v2
    ensures WaveIndex(v1) <= WaveIndex(v2)
  {
    var a := (v1 + 2.0) / 4.0 * |WaveChars| as real;
    var b := (v2 + 2.0) / 4.0 * |WaveChars| as real;
    assert a <= b;
  }

  /** spiralPattern's character index as written: no clamp. */
  function SpiralIndexAsWritten(value: real): (k: int)
    ensures -1.0 <= value <= 1.0 ==> 0 <= k <= |SpiralChars|
  {
    ((value + 1.0) * |SpiralChars| as real / 2.0).Floor
  }

  /** The text spiralPattern contributes to a frame as written: the ramp
      character, or, for an index outside the ramp, the string that
      JavaScript's `+=` makes of `undefined`. */
  function SpiralCellAsWritten(value: real): (cell: string)
    ensures |cell| == 1 <==> 0 <= SpiralIndexAsWritten(value) < |SpiralChars|
    ensures |cell| == 1 ==> cell == [SpiralChars[SpiralIndex(value)]]
    ensures |cell| != 1 ==> cell == "undefined"
  {
    var index := SpiralIndexAsWritten(value);
    if 0 <= index < |SpiralChars| then [SpiralChars[index]] else "undefined"
  }

  /** The spiral value is half the sum of a sine and a cosine, so it reaches
      1.0 when both do; at that value the index as written is 11, one past the
      end of the eleven-character ramp, and the cell receives nine characters
      instead of one, shifting the rest of its row. */
  lemma SpiralIndexOverflows()
    ensures SpiralIndexAsWritten(1.0) == |SpiralChars|
    ensures SpiralCellAsWritten(1.0) == "undefined"
  {
  }

  /** spiralPattern's index with the same clamp wavePattern applies: within the
      ramp for every value, and equal to the unclamped index wherever that one
      is in range. */
  function SpiralIndex(value: real): (k: int)
    ensures 0 <= k < |SpiralChars|
    ensures 0 <= SpiralIndexAsWritten(value) < |SpiralChars| ==> k == SpiralIndexAsWritten(value)
    ensures value >= 1.0 ==> k == |SpiralChars| - 1
  {
    Clamp(SpiralIndexAsWritten(value), 0, |SpiralChars| - 1)
  }

  /** In exact arithmetic, over the values the spiral can produce,
      -1 <= value <= 1, the clamped index differs from the written one only at
      value 1.0. */
  lemma SpiralClampOnlyAtTop(value: real)
    requires -1.0 <= value < 1.0
    ensures 0 <= SpiralIndexAsWritten(value) < |SpiralChars|
    ensures SpiralIndex(value) == SpiralIndexAsWritten(value)
  {
  }
}

=== FILE: art_routes.dfy ===
/** The saved-art endpoints of routes/ascii.py over an abstract table of
    ASCIIArt rows: save, owner-only load and delete, and the public feed.
    The logged-in user, the clock and the request body are parameters; the
    table is a map from primary key to row, with the next key the database
    would assign. */
module ArtRoutes {
  import DivMod

  /** One ASCIIArt row (models/ascii_art.py). `config` is the JSON column,
      kept as its serialised text; `createdAt` is the creation timestamp. */
  datatype Art = Art(title: string, content: string, config: string, userId: nat, createdAt: int)

  datatype Store = Store(arts: map<nat, Art>, nextId: nat)

  /** Keys are assigned in increasing order, so every key in use is below the
      next one to be assigned. This holds for a sequence-backed key, which
      never hands out a key twice; a store that reuses max(id) + 1 after the
      newest row is deleted is not modelled. */
  predicate ValidStore(s: Store)
  {
    forall id :: id in s.arts ==> id < s.nextId
  }

  /** The JSON object to_dict returns for a row (without the username, which
      comes from the users table). */
  datatype ArtDict = ArtDict(id: nat, title: string, content: string, config: string, userId: nat, createdAt: int)

  function ToDict(id: nat, art: Art): ArtDict
  {
    ArtDict(id, art.title, art.content, art.config, art.userId, art.createdAt)
  }

  /** to_dict drops no column: different rows, or one row under different
      keys, render differently, so a row can be read back from its dict. */
  lemma ToDictInjective(id: nat, art: Art, id': nat, art': Art)
    ensures ToDict(id, art) == ToDict(id', art') <==> id == id' && art == art'
    ensures ToDict(id, art).id == id
  {
  }

  datatype Body =
    | ErrorBody(error: string)
    | NotFoundPage
    | ArtBody(art: ArtDict)
    | NoContent
    | FeedBody(items: seq<ArtDict>, currentPage: nat)

  datatype Response = Response(status: nat, body: Body)

  /** The request's JSON object: field name to value. */
  type Request = map<string, string>

  /** The keys save_art insists on. */
  const RequiredFields: seq<string> := ["title", "content", "config"]

  /** Every required key is present in the request. */
  predicate HasRequiredFields(data: Request): (b: bool)
    ensures b <==> forall i :: 0 <= i < |RequiredFields| ==> RequiredFields[i] in data
  {
    assert |RequiredFields| == 3;
    assert RequiredFields[0] == "title" && RequiredFields[1] == "content" && RequiredFields[2] == "config";
    "title" in data && "content" in data && "config" in data
  }

  /** save_art: 400 and no change when a required field is missing; otherwise
      a new row under a fresh key, copied from the request and owned by the
      caller, returned with 201. */
  function SaveArt(s: Store, user: nat, data: Request, now: int): (out: (Store, Response))
    requires ValidStore(s)
    ensures ValidStore(out.0)
    ensures !HasRequiredFields(data) <==> out.1.status == 400
    ensures !HasRequiredFields(data) ==> out.0 == s && out.1.body == ErrorBody("Missing required fields")
    ensures HasRequiredFields(data) ==>
      var id := s.nextId;
      && out.1.status == 201
      && id !in s.arts
      && out.0.arts.Keys == s.arts.Keys + {id}
      && |out.0.arts| == |s.arts| + 1
      && out.0.arts[id].title == data["title"]
      && out.0.arts[id].content == data["content"]
      && out.0.arts[id].config == data["config"]
      && out.0.arts[id].userId == user
      && out.0.arts[id].createdAt == now
      && (forall k :: k in s.arts ==> out.0.arts[k] == s.arts[k])
      && out.1.body == ArtBody(ToDict(id, out.0.arts[id]))
  {
    if !HasRequiredFields(data) then
      (s, Response(400, ErrorBody("Missing required fields")))
    else
      var art := Art(data["title"], data["content"], data["config"], user, now);
      var id := s.nextId;
      var s' := Store(s.arts[id := art], s.nextId + 1);
      (s', Response(201, ArtBody(ToDict(id, art))))
  }

  /** load_art: 404 for an unknown key, 403 for a row the caller does not own,
      otherwise the row itself with 200. */
  function LoadArt(s: Store, user: nat, id: nat): (r: Response)
    ensures id !in s.arts <==> r.status == 404
    ensures id in s.arts && s.arts[id].userId != user <==> r.status == 403
    ensures id in s.arts && s.arts[id].userId == user <==> r.status == 200
    ensures r.status == 200 ==> r.body == ArtBody(ToDict(id, s.arts[id]))
  {
    if id !in s.arts then Response(404, NotFoundPage)
    else if s.arts[id].userId != user then Response(403, ErrorBody("Unauthorized"))
    else Response(200, ArtBody(ToDict(id, s.arts[id])))
  }

  /** delete_art: 404 and 403 as for load, with the table unchanged;
      otherwise exactly that row is removed and 204 is returned. */
  function DeleteArt(s: Store, user: nat, id: nat): (out: (Store, Response))
    requires ValidStore(s)
    ensures ValidStore(out.0)
    ensures id !in s.arts <==> out.1.status == 404
    ensures id in s.arts && s.arts[id].userId != user <==> out.1.status == 403
    ensures id in s.arts && s.arts[id].userId == user <==> out.1.status == 204
    ensures out.1.status != 204 ==> out.0 == s
    ensures out.1.status == 204 ==>
      && out.0.arts.Keys == s.arts.Keys - {id}
      && |out.0.arts| == |s.arts| - 1
      && out.0.nextId == s.nextId
      && (forall k :: k in out.0.arts ==> out.0.arts[k] == s.arts[k])
      && out.1.body == NoContent
  {
    if id !in s.arts then (s, Response(404, NotFoundPage))
    else if s.arts[id].userId != user then (s, Response(403, ErrorBody("Unauthorized")))
    else (Store(s.arts - {id}, s.nextId), Response(204, NoContent))
  }

  /** A deleted row cannot be loaded again. */
  lemma DeleteThenLoad(s: Store, user: nat, id: nat)
    requires ValidStore(s) && id in s.arts && s.arts[id].userId == user
    ensures LoadArt(DeleteArt(s, user, id).0, user, id).status == 404
  {
  }

  /** A saved row can be loaded back by its owner, with the request's fields. */
  lemma SaveThenLoad(s: Store, user: nat, data: Request, now: int)
    requires ValidStore(s) && HasRequiredFields(data)
    ensures var (s', r) := SaveArt(s, user, data, now);
      r.body.ArtBody? &&
      LoadArt(s', user, r.body.art.id) == Response(200, r.body)
  {
  }

  /** Rows per feed page. */
  const PerPage: nat := 10

  predicate AllIn(arts: map<nat, Art>, ids: seq<nat>)
  {
    forall i :: 0 <= i < |ids| ==> ids[i] in arts
  }

  predicate Distinct(ids: seq<nat>)
  {
    forall i, j :: 0 <= i < j < |ids| ==> ids[i] != ids[j]
  }

  /** Newest first: creation times never increase along the sequence. */
  predicate NewestFirst(arts: map<nat, Art>, ids: seq<nat>)
  {
    AllIn(arts, ids) &&
    forall i, j :: 0 <= i < j < |ids| ==> arts[ids[i]].createdAt >= arts[ids[j]].createdAt
  }

  /** Keys of the table below n, in increasing order. */
  function KeysBelow(arts: map<nat, Art>, n: nat): (ids: seq<nat>)
    ensures AllIn(arts, ids)
    ensures forall i :: 0 <= i < |ids| ==> ids[i] < n
    ensures forall i, j :: 0 <= i < j < |ids| ==> ids[i] < ids[j]
    ensures forall id :: id in arts && id < n ==> id in ids
  {
    if n == 0 then []
    else KeysBelow(arts, n - 1) + (if n - 1 in arts then [n - 1] else [])
  }

  /** Inserts `id` before the first row strictly older than it, so rows with
      equal creation times stay in the order they were inserted. */
  function InsertNewest(arts: map<nat, Art>, id: nat, ids: seq<nat>): (r: seq<nat>)
    requires id in arts && NewestFirst(arts, ids)
    ensures |r| == |ids| + 1
    ensures forall x :: x in r <==> x == id || x in ids
    ensures NewestFirst(arts, r)
    ensures Distinct(ids) && id !in ids ==> Distinct(r)
  {
    if ids == [] then [id]
    else if arts[ids[0]].createdAt < arts[id].createdAt then
      PrependNewest(arts, id, ids);
      [id] + ids
    else
      var rest := InsertNewest(arts, id, ids[1..]);
      HeadIsNewest(arts, id, ids, rest);
      PrependNewest(arts, ids[0], rest);
      assert Distinct(ids) && id !in ids ==> ids[0] !in rest;
      [ids[0]] + rest
  }

  /** The head of a newest-first sequence is at least as new as every row of
      its tail with one no-newer row inserted. */
  lemma HeadIsNewest(arts: map<nat, Art>, id: nat, ids: seq<nat>, rest: seq<nat>)
    requires id in arts && NewestFirst(arts, ids) && |ids| > 0
    requires arts[ids[0]].createdAt >= arts[id].createdAt
    requires AllIn(arts, rest) && forall x :: x in rest <==> x == id || x in ids[1..]
    ensures forall k :: 0 <= k < |rest| ==> arts[ids[0]].createdAt >= arts[rest[k]].createdAt
  {
    forall k | 0 <= k < |rest|
      ensures arts[ids[0]].createdAt >= arts[rest[k]].createdAt
    {
      assert rest[k] in rest;
      if rest[k] != id {
        assert rest[k] in ids[1..];
        var m :| 0 <= m < |ids[1..]| && ids[1..][m] == rest[k];
        assert ids[m + 1] == rest[k];
      }
    }
  }

  /** A row at least as new as the first of a newest-first sequence can be put
      in front of it. */
  lemma PrependNewest(arts: map<nat, Art>, id: nat, ids: seq<nat>)
    requires id in arts && NewestFirst(arts, ids)
    requires forall k :: 0 <= k < |ids| ==> arts[id].createdAt >= arts[ids[k]].createdAt
    ensures NewestFirst(arts, [id] + ids)
    ensures Distinct(ids) && id !in ids ==> Distinct([id] + ids)
  {
    var r := [id] + ids;
    assert forall k :: 1 <= k < |r| ==> r[k] == ids[k - 1];
  }

  /** Insertion sort of `ids` by creation time, newest first. */
  function SortNewest(arts: map<nat, Art>, ids: seq<nat>): (r: seq<nat>)
    requires AllIn(arts, ids)
    ensures NewestFirst(arts, r)
    ensures forall x :: x in r <==> x in ids
    ensures Distinct(ids) ==> Distinct(r)
  {
    if ids == [] then []
    else
      var init := ids[..|ids| - 1];
      assert forall x :: x in ids <==> x in init || x == ids[|ids| - 1];
      InsertNewest(arts, ids[|ids| - 1], SortNewest(arts, init))
  }

  /** ORDER BY created_at DESC over the whole table; rows created at the same
      time are listed by increasing key. */
  function Newest(s: Store): (r: seq<nat>)
    requires ValidStore(s)
    ensures NewestFirst(s.arts, r) && Distinct(r)
    ensures forall id :: id in r <==> id in s.arts
  {
    var keys := KeysBelow(s.arts, s.nextId);
    assert Distinct(keys);
    SortNewest(s.arts, keys)
  }

  /** The page actually served: pages below 1 are read as page 1. */
  function EffectivePage(page: int): (p: nat)
    ensures p >= 1
    ensures page >= 1 ==> p == page
    ensures page < 1 ==> p == 1
  {
    if page < 1 then 1 else page
  }

  /** Index range [start, end) of the newest-first ordering that page p covers. */
  function PageStart(p: nat, total: nat): nat
    requires p >= 1
  {
    if (p - 1) * PerPage < total then (p - 1) * PerPage else total
  }

  function PageEnd(p: nat, total: nat): nat
    requires p >= 1
  {
    if (p - 1) * PerPage + PerPage < total then (p - 1) * PerPage + PerPage else total
  }

  /** The part of an ordering that page p covers. */
  function PageSlice(order: seq<nat>, p: nat): (ids: seq<nat>)
    requires p >= 1
    ensures |ids| == PageEnd(p, |order|) - PageStart(p, |order|) <= PerPage
    ensures forall k :: 0 <= k < |ids| ==> ids[k] == order[PageStart(p, |order|) + k]
  {
    order[PageStart(p, |order|)..PageEnd(p, |order|)]
  }

  /** Keys of the rows on one page of the feed, in feed order. */
  function PageIds(s: Store, page: int): (ids: seq<nat>)
    requires ValidStore(s)
    ensures |ids| <= PerPage
    ensures NewestFirst(s.arts, ids) && Distinct(ids)
    ensures var p, n := EffectivePage(page), |Newest(s)|;
      |ids| == PageEnd(p, n) - PageStart(p, n) &&
      forall k :: 0 <= k < |ids| ==> ids[k] == Newest(s)[PageStart(p, n) + k]
  {
    var order := Newest(s);
    var p := EffectivePage(page);
    SliceNewestFirst(s.arts, order, PageStart(p, |order|), PageEnd(p, |order|));
    PageSlice(order, p)
  }

  lemma SliceNewestFirst(arts: map<nat, Art>, order: seq<nat>, lo: nat, hi: nat)
    requires NewestFirst(arts, order) && Distinct(order) && lo <= hi <= |order|
    ensures NewestFirst(arts, order[lo..hi]) && Distinct(order[lo..hi])
  {
    var ids := order[lo..hi];
    assert forall i :: 0 <= i < |ids| ==> ids[i] == order[lo + i];
  }

  /** Position k of page p is position PageStart + k of the whole ordering. */
  lemma PageIdsAt(s: Store, page: nat, k: nat)
    requires ValidStore(s) && page >= 1
    requires PageStart(page, |Newest(s)|) + k < PageEnd(page, |Newest(s)|)
    ensures k < |PageIds(s, page)|
    ensures PageIds(s, page)[k] == Newest(s)[PageStart(page, |Newest(s)|) + k]
  {
    assert PageIds(s, page) == PageSlice(Newest(s), page);
  }

  /** The rows on one page of the feed, as to_dict renders them. */
  function FeedItems(s: Store, page: int): (items: seq<ArtDict>)
    requires ValidStore(s)
    ensures |items| == |PageIds(s, page)|
    ensures forall i :: 0 <= i < |items| ==>
      items[i] == ToDict(PageIds(s, page)[i], s.arts[PageIds(s, page)[i]])
  {
    var ids := PageIds(s, page);
    seq(|ids|, i requires 0 <= i < |ids| => ToDict(ids[i], s.arts[ids[i]]))
  }

  /** public_feed: always 200 with the requested page, at most ten rows,
      each a row of the table, distinct and newest first. */
  function PublicFeed(s: Store, page: int): (r: Response)
    requires ValidStore(s)
    ensures r.status == 200 && r.body.FeedBody?
    ensures r.body.currentPage == EffectivePage(page)
    ensures |r.body.items| <= PerPage
    ensures forall i :: 0 <= i < |r.body.items| ==>
      r.body.items[i].id in s.arts && r.body.items[i] == ToDict(r.body.items[i].id, s.arts[r.body.items[i].id])
    ensures forall i, j :: 0 <= i < j < |r.body.items| ==>
      r.body.items[i].createdAt >= r.body.items[j].createdAt && r.body.items[i].id != r.body.items[j].id
    ensures var p, n := EffectivePage(page), |Newest(s)|;
      |r.body.items| == PageEnd(p, n) - PageStart(p, n) &&
      forall k :: 0 <= k < |r.body.items| ==> r.body.items[k].id == Newest(s)[PageStart(p, n) + k]
  {
    var items := FeedItems(s, page);
    assert forall i :: 0 <= i < |items| ==> items[i].id == PageIds(s, page)[i];
    Response(200, FeedBody(items, EffectivePage(page)))
  }

  /** Every row of the table is on some page: the row at position i of the
      newest-first order is on page i / 10 + 1. */
  lemma FeedListsEveryArt(s: Store, id: nat)
    requires ValidStore(s) && id in s.arts
    ensures exists page: nat :: page >= 1 && id in PageIds(s, page)
  {
    var order := Newest(s);
    assert id in order;
    var p := SliceHolding(order, id);
    assert PageIds(s, p) == PageSlice(order, p);
  }

  /** The page of an ordering on which a given member appears. */
  lemma SliceHolding(order: seq<nat>, id: nat) returns (p: nat)
    requires id in order
    ensures p >= 1 && id in PageSlice(order, p)
  {
    var i :| 0 <= i < |order| && order[i] == id;
    p := i / PerPage + 1;
    PageOf(i, |order|);
    var start := PageStart(p, |order|);
    assert PageSlice(order, p)[i - start] == id;
  }

  /** Position i of an ordering of n rows falls on page i / 10 + 1. */
  lemma PageOf(i: nat, n: nat)
    requires i < n
    ensures PageStart(i / PerPage + 1, n) <= i < PageEnd(i / PerPage + 1, n)
  {
    DivMod.DivBounds(i, PerPage);
  }

  /** Pages are ordered too: every row on an earlier page is at least as new
      as every row on a later page. */
  lemma FeedPagesNewestFirst(s: Store, p1: nat, p2: nat, i: nat, j: nat)
    requires ValidStore(s) && 1 <= p1 < p2
    requires i < |PageIds(s, p1)| && j < |PageIds(s, p2)|
    ensures s.arts[PageIds(s, p1)[i]].createdAt >= s.arts[PageIds(s, p2)[j]].createdAt
  {
    var order := Newest(s);
    var n := |order|;
    assert |PageIds(s, p1)| == PageEnd(p1, n) - PageStart(p1, n);
    assert |PageIds(s, p2)| == PageEnd(p2, n) - PageStart(p2, n);
    PageIdsAt(s, p1, i);
    PageIdsAt(s, p2, j);
    assert PageEnd(p1, n) <= PageStart(p2, n);
  }
}

=== FILE: ascii_convert.dfy ===
/** Conversion of an RGBA pixel buffer into ASCII text: the pixel loop shared by
    ASCIIArt.convertImageToAscii and VideoToASCII.convertFrameToASCII.

    The buffer is the flat array a canvas returns from getImageData: four bytes
    (red, green, blue, alpha) per pixel, rows of `width` pixels one after the
    other. Each pixel becomes one character of a ramp ordered dark to light,
    chosen from the pixel's mean brightness; a line break is written at the
    START of every row. */
module AsciiConvert {
  import DivMod

  /** One channel value of a canvas pixel. */
  type Byte = b: int | 0 <= b < 256

  /** The ramp both converters use, darkest character first. */
  const AsciiChars: string := "@#$%=+*:-. "

  /** Number of samples per row for images and video frames alike. */
  const SampleWidth: nat := 100

  /** Largest channel sum of a pixel: 3 * 255. */
  const MaxSum: nat := 765

  /** Ramp index for a pixel whose red+green+blue sum is `sum`:
      floor((sum / 3) / 255 * (rampLen - 1)), in exact arithmetic. */
  function CharIndex(sum: nat, rampLen: nat): (k: nat)
    requires sum <= MaxSum && rampLen >= 1
    ensures k <= rampLen - 1
    ensures sum == 0 ==> k == 0
    ensures sum == MaxSum ==> k == rampLen - 1
  {
    DivMod.MulMonotone(sum, MaxSum, rampLen - 1);
    DivMod.DivMonotone(sum * (rampLen - 1), MaxSum * (rampLen - 1), MaxSum);
    sum * (rampLen - 1) / MaxSum
  }

  /** A brighter pixel never maps to an earlier (darker) ramp character. */
  lemma CharIndexMonotone(s1: nat, s2: nat, rampLen: nat)
    requires s1 <= s2 <= MaxSum && rampLen >= 1
    ensures CharIndex(s1, rampLen) <= CharIndex(s2, rampLen)
  {
    DivMod.MulMonotone(s1, s2, rampLen - 1);
    DivMod.DivMonotone(s1 * (rampLen - 1), s2 * (rampLen - 1), MaxSum);
  }

  /** Sum of the red, green and blue bytes of pixel p; the alpha byte is not read. */
  function PixelSum(data: seq<Byte>, p: nat): (sum: nat)
    requires 4 * p + 3 < |data|
    ensures sum <= MaxSum
  {
    data[4 * p] as nat + data[4 * p + 1] as nat + data[4 * p + 2] as nat
  }

  /** The ramp character for pixel p. */
  function PixelChar(data: seq<Byte>, p: nat, ramp: string): (c: char)
    requires 4 * p + 3 < |data| && |ramp| >= 1
    ensures c in ramp
  {
    ramp[CharIndex(PixelSum(data, p), |ramp|)]
  }

  /** Number of rows begun among the first n pixels: pixels whose index is a
      multiple of the width. */
  function RowStarts(width: nat, n: nat): nat
    requires width >= 1
  {
    if n == 0 then 0
    else RowStarts(width, n - 1) + (if (n - 1) % width == 0 then 1 else 0)
  }

  /** Text the conversion loop has built after its first n pixels. */
  function ConvertPixels(data: seq<Byte>, width: nat, ramp: string, n: nat): (art: string)
    requires width >= 1 && |ramp| >= 1 && 4 * n <= |data|
    ensures |art| == n + RowStarts(width, n)
    ensures forall i :: 0 <= i < |art| ==> art[i] == '\n' || art[i] in ramp
  {
    if n == 0 then ""
    else
      ConvertPixels(data, width, ramp, n - 1)
      + (if (n - 1) % width == 0 then "\n" else "")
      + [PixelChar(data, n - 1, ramp)]
  }

  /** convertFrameToASCII: the whole buffer converted. */
  function ConvertFrameToAscii(data: seq<Byte>, width: nat, ramp: string): (art: string)
    requires width >= 1 && |ramp| >= 1 && |data| % 4 == 0
    ensures |art| == |data| / 4 + RowStarts(width, |data| / 4)
    ensures forall i :: 0 <= i < |art| ==> art[i] == '\n' || art[i] in ramp
  {
    ConvertPixels(data, width, ramp, |data| / 4)
  }

  /** convertImageToAscii's loop: it walks the buffer four bytes at a time and
      starts a new line whenever the byte offset is a multiple of 4 * width.
      It produces exactly the text of convertFrameToASCII. */
  method ConvertImageToAscii(data: seq<Byte>, width: nat, ramp: string) returns (art: string)
    requires width >= 1 && |ramp| >= 1 && |data| % 4 == 0
    ensures art == ConvertFrameToAscii(data, width, ramp)
  {
    art := "";
    var i := 0;
    ghost var p := 0;
    while i < |data|
      invariant 0 <= i <= |data| && i == 4 * p
      invariant art == ConvertPixels(data, width, ramp, p)
    {
      LoopStep(data, width, ramp, p);
      var lineBreak := if i % (width * 4) == 0 then "\n" else "";
      var sum := data[i] as nat + data[i + 1] as nat + data[i + 2] as nat;
      art := art + lineBreak + [ramp[CharIndex(sum, |ramp|)]];
      i := i + 4;
      p := p + 1;
    }
    assert p == |data| / 4;
  }

  /** One iteration of convertImageToAscii's loop at byte offset 4p appends
      the text ConvertPixels adds for pixel p. */
  lemma LoopStep(data: seq<Byte>, width: nat, ramp: string, p: nat)
    requires width >= 1 && |ramp| >= 1 && 4 * p < |data| && |data| % 4 == 0
    ensures 4 * p + 3 < |data|
    ensures ConvertPixels(data, width, ramp, p + 1) ==
      ConvertPixels(data, width, ramp, p)
      + (if (4 * p) % (width * 4) == 0 then "\n" else "")
      + [ramp[CharIndex(data[4 * p] as nat + data[4 * p + 1] as nat + data[4 * p + 2] as nat, |ramp|)]]
  {
    DivMod.ModScale(p, width, 4);
    assert 4 * width == width * 4;
  }

  /** Position in the converted text of column x of row y: each row is one
      line break followed by `width` characters. */
  function CellPos(width: nat, y: nat, x: nat): nat
  {
    y * (width + 1) + 1 + x
  }

  /** Position of the line break that opens row y. */
  function BreakPos(width: nat, y: nat): nat
  {
    y * (width + 1)
  }

  /** Character for column x of row y of a width-by-height buffer. */
  function CellChar(data: seq<Byte>, width: nat, height: nat, ramp: string, y: nat, x: nat): char
    requires |ramp| >= 1 && |data| == 4 * width * height && y < height && x < width
  {
    RowBound(width, height, y, x);
    PixelChar(data, y * width + x, ramp)
  }

  /** A cell of a row inside the frame lies inside the buffer. */
  lemma RowBound(width: nat, height: nat, y: nat, x: nat)
    requires y < height && x < width
    ensures y * width + x < width * height
    ensures 4 * (y * width + x) + 3 < 4 * width * height
  {
    DivMod.MulMonotone(y + 1, height, width);
  }

  /** Pixel p appears right after the RowStarts(p + 1) line breaks before it. */
  lemma {:induction false} PixelPosition(data: seq<Byte>, width: nat, ramp: string, n: nat, p: nat)
    requires width >= 1 && |ramp| >= 1 && 4 * n <= |data| && p < n
    ensures p + RowStarts(width, p + 1) < |ConvertPixels(data, width, ramp, n)|
    ensures ConvertPixels(data, width, ramp, n)[p + RowStarts(width, p + 1)] == PixelChar(data, p, ramp)
  {
    if p < n - 1 {
      PixelPosition(data, width, ramp, n - 1, p);
    }
  }

  /** A pixel that starts a row is preceded by a line break. */
  lemma {:induction false} BreakPosition(data: seq<Byte>, width: nat, ramp: string, n: nat, p: nat)
    requires width >= 1 && |ramp| >= 1 && 4 * n <= |data| && p < n && p % width == 0
    ensures p + RowStarts(width, p) < |ConvertPixels(data, width, ramp, n)|
    ensures ConvertPixels(data, width, ramp, n)[p + RowStarts(width, p)] == '\n'
  {
    if p < n - 1 {
      BreakPosition(data, width, ramp, n - 1, p);
    }
  }

  /** Within row y, the pixels before column x have opened y rows, plus one
      more once the row itself has begun. */
  lemma {:induction false} RowStartsRowMajor(width: nat, y: nat, x: nat)
    requires width >= 1 && x <= width
    ensures RowStarts(width, y * width + x) == y + (if x == 0 then 0 else 1)
    decreases y, x
  {
    if x == 0 {
      if y > 0 {
        assert y * width == (y - 1) * width + width;
        RowStartsRowMajor(width, y - 1, width);
      }
    } else {
      RowStartsRowMajor(width, y, x - 1);
      DivMod.RowMajor(y, x - 1, width);
    }
  }

  /** The layout of a converted w-by-h buffer: h rows, each a line break
      followed by exactly w ramp characters, the character in column x of
      row y being the one for pixel y*w + x. */
  lemma FrameLayout(data: seq<Byte>, width: nat, height: nat, ramp: string)
    requires width >= 1 && |ramp| >= 1 && |data| == 4 * width * height
    ensures |data| % 4 == 0
    ensures |ConvertFrameToAscii(data, width, ramp)| == width * height + height
    ensures forall y :: 0 <= y < height ==>
      BreakPos(width, y) < |ConvertFrameToAscii(data, width, ramp)| &&
      ConvertFrameToAscii(data, width, ramp)[BreakPos(width, y)] == '\n'
    ensures forall y, x :: 0 <= y < height && 0 <= x < width ==>
      CellPos(width, y, x) < |ConvertFrameToAscii(data, width, ramp)| &&
      ConvertFrameToAscii(data, width, ramp)[CellPos(width, y, x)] == CellChar(data, width, height, ramp, y, x)
  {
    FrameLength(data, width, height, ramp);
    forall y | 0 <= y < height
      ensures BreakPos(width, y) < |ConvertFrameToAscii(data, width, ramp)|
      ensures ConvertFrameToAscii(data, width, ramp)[BreakPos(width, y)] == '\n'
    {
      FrameBreak(data, width, height, ramp, y);
    }
    forall y, x | 0 <= y < height && 0 <= x < width
      ensures CellPos(width, y, x) < |ConvertFrameToAscii(data, width, ramp)|
      ensures ConvertFrameToAscii(data, width, ramp)[CellPos(width, y, x)] == CellChar(data, width, height, ramp, y, x)
    {
      FrameCell(data, width, height, ramp, y, x);
    }
  }

  lemma FrameLength(data: seq<Byte>, width: nat, height: nat, ramp: string)
    requires width >= 1 && |ramp| >= 1 && |data| == 4 * width * height
    ensures |data| % 4 == 0
    ensures |ConvertFrameToAscii(data, width, ramp)| == width * height + height
  {
    var n := width * height;
    assert |data| == 4 * n;
    assert |data| / 4 == n;
    RowStartsRowMajor(width, height, 0);
    assert height * width + 0 == n;
  }

  lemma FrameBreak(data: seq<Byte>, width: nat, height: nat, ramp: string, y: nat)
    requires width >= 1 && |ramp| >= 1 && |data| == 4 * width * height && y < height
    ensures |data| % 4 == 0
    ensures BreakPos(width, y) < |ConvertFrameToAscii(data, width, ramp)|
    ensures ConvertFrameToAscii(data, width, ramp)[BreakPos(width, y)] == '\n'
  {
    var n := width * height;
    assert |data| == 4 * n;
    assert |data| / 4 == n;
    RowBound(width, height, y, 0);
    BreakCell(data, width, ramp, n, y);
  }

  lemma FrameCell(data: seq<Byte>, width: nat, height: nat, ramp: string, y: nat, x: nat)
    requires width >= 1 && |ramp| >= 1 && |data| == 4 * width * height && y < height && x < width
    ensures |data| % 4 == 0
    ensures CellPos(width, y, x) < |ConvertFrameToAscii(data, width, ramp)|
    ensures ConvertFrameToAscii(data, width, ramp)[CellPos(width, y, x)] == CellChar(data, width, height, ramp, y, x)
  {
    var n := width * height;
    assert |data| == 4 * n;
    assert |data| / 4 == n;
    RowBound(width, height, y, x);
    PixelCell(data, width, ramp, n, y, x);
  }

  /** Row y of the text starts after y full rows of w characters and y breaks. */
  lemma PositionsSplit(width: nat, y: nat, x: nat)
    ensures BreakPos(width, y) == y * width + y
    ensures CellPos(width, y, x) == y * width + x + y + 1
  {
    assert y * (width + 1) == y * width + y;
  }

  /** The line break opening row y of the first n pixels' text. */
  lemma BreakCell(data: seq<Byte>, width: nat, ramp: string, n: nat, y: nat)
    requires width >= 1 && |ramp| >= 1 && 4 * n <= |data| && y * width < n
    ensures BreakPos(width, y) < |ConvertPixels(data, width, ramp, n)|
    ensures ConvertPixels(data, width, ramp, n)[BreakPos(width, y)] == '\n'
  {
    var p := y * width;
    assert p % width == 0 by { DivMod.RowMajor(y, 0, width); }
    assert RowStarts(width, p) == y by { RowStartsRowMajor(width, y, 0); }
    PositionsSplit(width, y, 0);
    BreakPosition(data, width, ramp, n, p);
  }

  /** Column x of row y of the first n pixels' text. */
  lemma PixelCell(data: seq<Byte>, width: nat, ramp: string, n: nat, y: nat, x: nat)
    requires width >= 1 && |ramp| >= 1 && 4 * n <= |data| && x < width && y * width + x < n
    ensures 4 * (y * width + x) + 3 < |data|
    ensures CellPos(width, y, x) < |ConvertPixels(data, width, ramp, n)|
    ensures ConvertPixels(data, width, ramp, n)[CellPos(width, y, x)] == PixelChar(data, y * width + x, ramp)
  {
    var p := y * width + x;
    RowStartsRowMajor(width, y, x + 1);
    assert y * width + (x + 1) == p + 1;
    PositionsSplit(width, y, x);
    PixelPosition(data, width, ramp, n, p);
  }

  /** Alpha is ignored: two buffers that agree on every red, green and blue byte
      convert to the same text. */
  lemma {:induction false} AlphaIgnored(data: seq<Byte>, data': seq<Byte>, width: nat, ramp: string, n: nat)
    requires width >= 1 && |ramp| >= 1 && 4 * n <= |data| == |data'|
    requires forall j :: 0 <= j < |data| && j % 4 != 3 ==> data[j] == data'[j]
    ensures ConvertPixels(data, width, ramp, n) == ConvertPixels(data', width, ramp, n)
  {
    if n > 0 {
      AlphaIgnored(data, data', width, ramp, n - 1);
      var p := n - 1;
      DivMod.RowMajor(p, 0, 4);
      DivMod.RowMajor(p, 1, 4);
      DivMod.RowMajor(p, 2, 4);
      assert data[4 * p] == data'[4 * p];
      assert data[4 * p + 1] == data'[4 * p + 1];
      assert data[4 * p + 2] == data'[4 * p + 2];
    }
  }

  /** A buffer whose pixels all have the same channel sum converts to line
      breaks and copies of one ramp character; all black gives the first ramp
      character, all white the last. */
  lemma {:induction false} SolidColour(data: seq<Byte>, width: nat, ramp: string, n: nat, sum: nat)
    requires width >= 1 && |ramp| >= 1 && 4 * n <= |data| && sum <= MaxSum
    requires forall p :: 0 <= p < n ==> PixelSum(data, p) == sum
    ensures forall i :: 0 <= i < |ConvertPixels(data, width, ramp, n)| ==>
      ConvertPixels(data, width, ramp, n)[i] == '\n' || ConvertPixels(data, width, ramp, n)[i] == ramp[CharIndex(sum, |ramp|)]
    ensures sum == 0 ==> forall i :: 0 <= i < |ConvertPixels(data, width, ramp, n)| ==>
      ConvertPixels(data, width, ramp, n)[i] == '\n' || ConvertPixels(data, width, ramp, n)[i] == ramp[0]
    ensures sum == MaxSum ==> forall i :: 0 <= i < |ConvertPixels(data, width, ramp, n)| ==>
      ConvertPixels(data, width, ramp, n)[i] == '\n' || ConvertPixels(data, width, ramp, n)[i] == ramp[|ramp| - 1]
  {
    if n > 0 {
      SolidColour(data, width, ramp, n - 1, sum);
    }
  }

  /** With the default ramp, a black pixel is '@' and a white pixel is ' '. */
  lemma DefaultRampEndpoints()
    ensures AsciiChars[CharIndex(0, |AsciiChars|)] == '@'
    ensures AsciiChars[CharIndex(MaxSum, |AsciiChars|)] == ' '
  {
  }

  /** Height of the sample grid for an image or video of the given size:
      floor(srcHeight * 100 / srcWidth / 2), the halving compensating for
      character cells being about twice as tall as wide. */
  function SampleHeight(srcWidth: nat, srcHeight: nat): (h: nat)
    requires srcWidth > 0
    ensures 2 * srcWidth * h <= srcHeight * SampleWidth < 2 * srcWidth * (h + 1)
  {
    var a: nat := srcHeight * SampleWidth;
    var d: nat := 2 * srcWidth;
    DivMod.DivBounds(a, d);
    var h: nat := a / d;
    assert d * h <= a < d * (h + 1);
    h
  }
}

=== FILE: divmod.dfy ===
/** Facts about Dafny's Euclidean `/` and `%` on non-negative operands that the
    solver does not find on its own when the divisor is not a literal. All
    operands here are non-negative, where Euclidean and truncating division
    agree, so these facts hold equally for JavaScript's `%` and `Math.floor`. */
module DivMod {

  /** Quotient and remainder are determined by any decomposition a == q*d + r
      with 0 <= r < d. */
  lemma DivModUnique(a: int, d: int, q: int, r: int)
    requires d > 0 && 0 <= r < d
    requires a == q * d + r
    ensures a / d == q && a % d == r
  {
    var q', r' := a / d, a % d;
    assert a == q' * d + r';
    if q' < q {
      assert (q - q') * d == r' - r;
      assert (q - q') * d >= d by { MulAtLeast(q - q', d); }
    } else if q' > q {
      assert (q' - q) * d == r - r';
      assert (q' - q) * d >= d by { MulAtLeast(q' - q, d); }
    }
  }

  lemma MulAtLeast(k: int, d: int)
    requires k >= 1 && d > 0
    ensures k * d >= d
  {
    assert k * d == (k - 1) * d + d;
    assert (k - 1) * d >= 0;
  }

  /** The quotient brackets the dividend. */
  lemma DivBounds(a: nat, d: nat)
    requires d > 0
    ensures 0 <= a / d
    ensures d * (a / d) <= a < d * (a / d + 1)
  {
    assert a == d * (a / d) + a % d;
    assert d * (a / d + 1) == d * (a / d) + d;
  }

  /** A cell x of row y in a row-major layout of width w has column x. */
  lemma RowMajor(y: nat, x: nat, w: nat)
    requires x < w
    ensures (y * w + x) / w == y && (y * w + x) % w == x
  {
    DivModUnique(y * w + x, w, y, x);
  }

  /** Scaling both operands by 4 (bytes per pixel) scales the remainder by 4. */
  lemma ModScale(p: nat, w: nat, k: nat)
    requires w > 0 && k > 0
    ensures (k * p) % (k * w) == k * (p % w)
  {
    var q, r := p / w, p % w;
    assert p == q * w + r;
    assert k * p == q * (k * w) + k * r;
    assert k * r < k * w;
    DivModUnique(k * p, k * w, q, k * r);
  }

  /** Integer division by a positive divisor is monotone in the dividend. */
  lemma DivMonotone(a: nat, b: nat, d: nat)
    requires d > 0 && a <= b
    ensures a / d <= b / d
  {
    if a / d > b / d {
      assert (a / d) * d <= a;
      assert b < (b / d) * d + d;
      assert (b / d + 1) * d <= (a / d) * d by {
        assert b / d + 1 <= a / d;
        MulMonotone(b / d + 1, a / d, d);
      }
    }
  }

  lemma MulMonotone(a: nat, b: nat, c: nat)
    requires a <= b
    ensures a * c <= b * c
  {
    assert b * c == a * c + (b - a) * c;
  }

  /** One step of a cyclic cursor modulo n. */
  lemma ModSucc(a: nat, n: nat)
    requires n > 0
    ensures (a + 1) % n == if a % n == n - 1 then 0 else a % n + 1
  {
    var q, r := a / n, a % n;
    if r == n - 1 {
      DivModUnique(a + 1, n, q + 1, 0);
    } else {
      DivModUnique(a + 1, n, q, r + 1);
    }
  }
}

=== FILE: playback.dfy ===
/** The video player of ascii.js (class VideoToASCII): a buffer of converted
    frames, a playing flag and a cyclic cursor, plus the text currently shown
    in the ASCII container. Timer callbacks become explicit steps: one
    PlayNextFrame per 1000/24 ms tick. */
module Playback {
  import AsciiConvert
  import DivMod

  /** Frames are sampled, and played back, at 24 per second. */
  const FrameRate: nat := 24

  datatype Player = Player(
    frameBuffer: seq<string>,
    isPlaying: bool,
    currentFrame: nat,
    display: string)

  /** The buffer index playNextFrame shows next: the cursor, or 0 once the
      cursor has run past the end of the buffer. */
  function NextShown(p: Player): (k: nat)
    ensures |p.frameBuffer| > 0 ==> k < |p.frameBuffer|
    ensures p.currentFrame < |p.frameBuffer| ==> k == p.currentFrame
    ensures p.currentFrame >= |p.frameBuffer| ==> k == 0
  {
    if p.currentFrame >= |p.frameBuffer| then 0 else p.currentFrame
  }

  /** playNextFrame. A tick while paused or stopped does nothing. Otherwise
      the frame at NextShown is displayed and the cursor moves one past it.
      With an empty buffer (a new extraction has just cleared it) the lookup
      yields undefined, which the container shows as empty text. */
  function PlayNextFrame(p: Player): (q: Player)
    ensures !p.isPlaying ==> q == p
    ensures p.isPlaying ==> q.isPlaying && q.frameBuffer == p.frameBuffer
    ensures p.isPlaying ==> q.currentFrame == NextShown(p) + 1
    ensures p.isPlaying && |p.frameBuffer| > 0 ==>
      1 <= q.currentFrame <= |p.frameBuffer| &&
      q.display == p.frameBuffer[q.currentFrame - 1]
    ensures p.isPlaying && |p.frameBuffer| == 0 ==> q.display == "" && q.currentFrame == 1
  {
    if !p.isPlaying then p
    else
      var k := NextShown(p);
      p.(display := if k < |p.frameBuffer| then p.frameBuffer[k] else "",
         currentFrame := k + 1)
  }

  /** playASCII: starts playback and shows a frame at once, unless already
      playing or there is nothing to play. */
  function Play(p: Player): (q: Player)
    ensures p.isPlaying || |p.frameBuffer| == 0 ==> q == p
    ensures !p.isPlaying && |p.frameBuffer| > 0 ==>
      q.isPlaying && q.frameBuffer == p.frameBuffer &&
      q.display == p.frameBuffer[NextShown(p)] &&
      q.currentFrame == NextShown(p) + 1
  {
    if !p.isPlaying && |p.frameBuffer| > 0 then PlayNextFrame(p.(isPlaying := true))
    else p
  }

  /** pauseASCII: stops the ticks; cursor, buffer and shown text stay. */
  function Pause(p: Player): (q: Player)
    ensures !q.isPlaying
    ensures q.currentFrame == p.currentFrame
    ensures q.frameBuffer == p.frameBuffer && q.display == p.display
  {
    p.(isPlaying := false)
  }

  /** stopASCII: stops the ticks, rewinds the cursor and blanks the display,
      whatever the state before. */
  function Stop(p: Player): (q: Player)
    ensures !q.isPlaying && q.currentFrame == 0 && q.display == ""
    ensures q.frameBuffer == p.frameBuffer
  {
    p.(isPlaying := false, currentFrame := 0, display := "")
  }

  /** The state after k timer ticks: the chain that playNextFrame keeps
      alive by re-arming its own timer. Ticks never change the buffer or the
      playing flag, and a stopped or paused player ignores them. */
  function Ticks(p: Player, k: nat): (q: Player)
    ensures q.frameBuffer == p.frameBuffer && q.isPlaying == p.isPlaying
    ensures !p.isPlaying ==> q == p
  {
    if k == 0 then p else PlayNextFrame(Ticks(p, k - 1))
  }

  /** Playback is cyclic: starting from frame s = NextShown(p), the j-th tick
      shows frame (s + j - 1) mod n, so a 3-frame buffer advancing from 0 shows
      0, 1, 2, 0, 1, ... */
  lemma {:induction false} TicksCycle(p: Player, k: nat)
    requires p.isPlaying && |p.frameBuffer| > 0 && k >= 1
    ensures Ticks(p, k).isPlaying && Ticks(p, k).frameBuffer == p.frameBuffer
    ensures Ticks(p, k).currentFrame == (NextShown(p) + k - 1) % |p.frameBuffer| + 1
    ensures Ticks(p, k).display == p.frameBuffer[(NextShown(p) + k - 1) % |p.frameBuffer|]
  {
    TicksCursor(p, k);
  }

  /** The cursor part of TicksCycle, by induction on the number of ticks. */
  lemma {:induction false} TicksCursor(p: Player, k: nat)
    requires p.isPlaying && |p.frameBuffer| > 0 && k >= 1
    ensures Ticks(p, k).isPlaying && Ticks(p, k).frameBuffer == p.frameBuffer
    ensures Ticks(p, k).currentFrame == (NextShown(p) + k - 1) % |p.frameBuffer| + 1
  {
    if k == 1 {
      DivMod.DivModUnique(NextShown(p), |p.frameBuffer|, 0, NextShown(p));
    } else {
      TicksCursor(p, k - 1);
      TickStep(Ticks(p, k - 1), NextShown(p) + (k - 1) - 1);
    }
  }

  /** One tick advances a cursor that sits just past frame a mod n to just
      past frame (a + 1) mod n. */
  lemma TickStep(q: Player, a: nat)
    requires q.isPlaying && |q.frameBuffer| > 0
    requires q.currentFrame == a % |q.frameBuffer| + 1
    ensures PlayNextFrame(q).isPlaying && PlayNextFrame(q).frameBuffer == q.frameBuffer
    ensures PlayNextFrame(q).currentFrame == (a + 1) % |q.frameBuffer| + 1
  {
    DivMod.ModSucc(a, |q.frameBuffer|);
  }

  /** Pausing and playing again resumes where playback stopped: the frame
      shown next is the one the uninterrupted player would have shown. */
  lemma PauseThenPlayResumes(p: Player)
    requires p.isPlaying && |p.frameBuffer| > 0
    ensures Play(Pause(p)) == PlayNextFrame(p)
  {
  }

  /** After a stop, playing starts again from the first frame. */
  lemma StopThenPlayRestarts(p: Player)
    requires |p.frameBuffer| > 0
    ensures Play(Stop(p)).display == p.frameBuffer[0]
    ensures Play(Stop(p)).currentFrame == 1
  {
  }

  /** Seek time of frame i during extraction: i / 24 seconds. */
  function SeekTime(i: nat): (t: real)
    ensures t * FrameRate as real == i as real
  {
    i as real / FrameRate as real
  }

  /** Frames are sampled in strictly increasing time order. */
  lemma SeekTimesIncrease(i: nat, j: nat)
    requires i < j
    ensures SeekTime(i) < SeekTime(j)
  {
  }

  /** Number of frames extracted from a video of the given duration in
      seconds: floor(duration * 24). */
  function FrameCount(duration: real): (n: nat)
    requires duration >= 0.0
    ensures n as real <= duration * FrameRate as real < n as real + 1.0
  {
    (duration * FrameRate as real).Floor
  }

  /** extractFrames: empties the buffer, then for i = 0 .. frameCount-1 seeks
      the video to i/24 s, draws it into the 100-column canvas and appends the
      converted text. `draw(t)` stands for the canvas pixels after seeking to
      time t; the playing flag, cursor and display are not touched. */
  method ExtractFrames(p: Player, frameCount: nat, height: nat, draw: real -> seq<AsciiConvert.Byte>)
    returns (q: Player)
    requires height >= 1
    requires forall t :: |draw(t)| == 4 * AsciiConvert.SampleWidth * height
    ensures |q.frameBuffer| == frameCount
    ensures forall i :: 0 <= i < frameCount ==>
      |draw(SeekTime(i))| % 4 == 0 &&
      q.frameBuffer[i] == AsciiConvert.ConvertFrameToAscii(draw(SeekTime(i)), AsciiConvert.SampleWidth, AsciiConvert.AsciiChars)
    ensures q.isPlaying == p.isPlaying && q.currentFrame == p.currentFrame && q.display == p.display
  {
    q := p.(frameBuffer := []);
    var i := 0;
    while i < frameCount
      invariant 0 <= i <= frameCount
      invariant |q.frameBuffer| == i
      invariant forall j :: 0 <= j < i ==>
        |draw(SeekTime(j))| % 4 == 0 &&
        q.frameBuffer[j] == AsciiConvert.ConvertFrameToAscii(draw(SeekTime(j)), AsciiConvert.SampleWidth, AsciiConvert.AsciiChars)
      invariant q.isPlaying == p.isPlaying && q.currentFrame == p.currentFrame && q.display == p.display
    {
      var pixels := draw(SeekTime(i));
      assert |pixels| == 4 * (AsciiConvert.SampleWidth * height);
      var frame := AsciiConvert.ConvertImageToAscii(pixels, AsciiConvert.SampleWidth, AsciiConvert.AsciiChars);
      q := q.(frameBuffer := q.frameBuffer + [frame]);
      i := i + 1;
    }
  }

  /** processVideo once the video has loaded: the canvas is SampleWidth
      columns by SampleHeight rows, floor(duration * 24) frames are extracted,
      then playASCII runs. A player that was stopped or paused starts showing
      the new frames from its old cursor (wrapped to 0 if past the new end);
      one that is still playing keeps ticking through the new buffer. */
  method ProcessVideo(p: Player, videoWidth: nat, videoHeight: nat, duration: real,
                      draw: real -> seq<AsciiConvert.Byte>)
    returns (q: Player)
    requires videoWidth > 0 && duration >= 0.0
    requires AsciiConvert.SampleHeight(videoWidth, videoHeight) >= 1
    requires forall t :: |draw(t)| == 4 * AsciiConvert.SampleWidth * AsciiConvert.SampleHeight(videoWidth, videoHeight)
    ensures |q.frameBuffer| == FrameCount(duration)
    ensures forall i :: 0 <= i < |q.frameBuffer| ==>
      |draw(SeekTime(i))| % 4 == 0 &&
      q.frameBuffer[i] == AsciiConvert.ConvertFrameToAscii(draw(SeekTime(i)), AsciiConvert.SampleWidth, AsciiConvert.AsciiChars)
    ensures p.isPlaying || FrameCount(duration) == 0 ==>
      q.isPlaying == p.isPlaying && q.currentFrame == p.currentFrame && q.display == p.display
    ensures FrameCount(duration) > 0 ==> q.isPlaying
    ensures FrameCount(duration) > 0 && !p.isPlaying ==>
      var k := if p.currentFrame >= FrameCount(duration) then 0 else p.currentFrame;
      q.currentFrame == k + 1 && q.display == q.frameBuffer[k]
  {
    var height := AsciiConvert.SampleHeight(videoWidth, videoHeight);
    var frameCount := FrameCount(duration);
    var extracted := ExtractFrames(p, frameCount, height, draw);
    q := Play(extracted);
  }
}
